=== FILE: README.md ===
# Screen logic of the messaging client

A functional model of the logic embedded in six screens of a React Native
social-messaging client: creating a group, listing the user's groups, the
friend list, a group chat, a one-to-one conversation, and the friend-request
form. Each screen becomes a Dafny module holding an immutable `State`
datatype and pure transition functions. Every HTTP call is an abstract
`Api.Response<T>`: `Ok(payload)`, `NotFound`, `OtherError` or
`Exception`. It is passed in as a parameter. An action returns an
`Api.Step`: the new state plus the request it issued, or `None` when a guard
stopped it before any network call.

Modules:

- `Api`: `Option`, `Response`, `Step`, and JavaScript string truthiness.
- `Text`: `String.prototype.trim` over the ECMAScript whitespace set, and `join`.
- `Seqs`: duplicate-freedom, the insertion order of a JavaScript `Set` (`Dedup`), first-occurrence order, subsequences, `flat`.
- `Users`: the user record of the group screens and the id-to-user table built from a list (the last entry wins).
- `CreateGroup`, `GroupList`, `FriendList`, `GroupChat`, `DirectMessage` (the conversation screen), `FriendRequests`: one per screen.

The screens hard-code some ids, and the model keeps them as constants:

- `CreateGroup.CreatorId` and `GroupList.CurrentUserId` are both "676eaf9c383d346fef2cce5d".
- `GroupChat.SenderId` is "676ada3d372fdc341958fc55". This is a different user.
- `FriendRequests.RequesterPlaceholder` is the literal "CURRENT_USER_ID".

The model keeps these details of the code:

- The accept and reject buttons appear under `requestStatus && …`. A status that is the empty string therefore hides them, just as `null` does (`FriendRequests.DecisionButtonsShown`).
- The friend-request guards test for an empty string only. They do not trim, so a blank id is sent.
- The group-chat sender lookup has no guard for an empty id list. The group-list member lookup does have one.

## Model

| member | source | states |
|---|---|---|
| Text.Trim | app/screens/CreateGroupScreen.tsx:12 | the trimmed text is the slice left after dropping a whitespace prefix and a whitespace suffix. It has no whitespace at either end, and it is empty exactly when the input is all whitespace |
| Text.Join | app/screens/GroupListScreen.tsx:82 | joining no entries gives the empty text and one entry gives that entry. Otherwise the text starts with the first entry and ends with the last |
| Text.TrimIdempotent | app/screens/CreateGroupScreen.tsx:12-13 | trimming an already trimmed value changes nothing, so a stored member id is its own trim |
| Text.JoinSnoc | app/screens/GroupListScreen.tsx:82 | joining one more entry appends the separator and that entry |
| Text.JoinLength | app/screens/GroupListScreen.tsx:82 | the joined text is as long as the entries plus one separator between each pair of neighbours |
| Seqs.AppendNew | app/screens/CreateGroupScreen.tsx:12-13 | guarded append keeps the old list as a prefix, adds at most one element, keeps a duplicate-free list duplicate-free, and changes nothing exactly when the element is already present |
| Seqs.Dedup | app/screens/GroupListScreen.tsx:41 | the result has no duplicates and holds exactly the elements of the input |
| Seqs.DedupFirstOccurrenceOrder | app/screens/GroupListScreen.tsx:41 | the deduplicated list is ordered by each element's first occurrence in the input |
| Seqs.DedupUnique | app/screens/GroupListScreen.tsx:41 | any duplicate-free list of the same elements in first-occurrence order equals the deduplicated list, so these properties determine it |
| Seqs.Concat | app/screens/GroupListScreen.tsx:41 | the flattened list holds every element of every inner list and nothing else. No lists flatten to the empty list, and a single list flattens to itself |
| Seqs.ConcatAppend | app/screens/GroupListScreen.tsx:41 | flattening lays the inner lists out one after another, in order: flattening two lists of lists joined is the two flattenings joined |
| Users.UserMap | app/screens/GroupListScreen.tsx:62-65 | the table's keys are exactly the ids in the list, and each entry is a user of the list carrying that id |
| Users.UserMapLastWins | app/screens/GroupChatScreen.tsx:50-53 | a user whose id does not occur later in the list is the table's entry for that id, so the later duplicate wins |
| CreateGroup.AddMember | app/screens/CreateGroupScreen.tsx:11-16 | the list grows exactly when the trimmed draft is non-empty and new. The draft then joins at the end, the old members keep their order, and the draft is cleared. A rejected add changes nothing. The member invariant is preserved |
| CreateGroup.CreateGroup | app/screens/CreateGroupScreen.tsx:18-38 | the request always carries the current name, the creator id and the member list. An ok response empties the name and the list. Any other outcome changes nothing. The draft is never touched |
| CreateGroup.AddMemberIdempotent | app/screens/CreateGroupScreen.tsx:12-13 | adding the same text twice in a row gives the member list of one add |
| CreateGroup.MembersAlwaysValid | app/screens/CreateGroupScreen.tsx:6-38 | after any sequence of edits, adds and creates from the empty form, the member list is duplicate-free and every id is non-empty and trimmed |
| CreateGroup.RunKeepsValid | app/screens/CreateGroupScreen.tsx:11-38 | every sequence of form events preserves the member invariant |
| GroupList.GroupsOfExact | app/screens/GroupListScreen.tsx:35-37 | the kept groups are exactly the input groups whose members include the user, with the same multiplicity, as a subsequence of the input |
| GroupList.GroupsOf | app/screens/GroupListScreen.tsx:35-37 | the filter keeps no more groups than it was given, and every kept group lists the user |
| GroupList.GroupsOfMultiplicity | app/screens/GroupListScreen.tsx:35-37 | each group occurs in the filtered list as often as in the input when the user is a member, and not at all otherwise |
| GroupList.GroupsOfSubseq | app/screens/GroupListScreen.tsx:35-37 | the filtered list keeps the input's relative order: it is a subsequence of the input |
| GroupList.GroupsOfIdempotent | app/screens/GroupListScreen.tsx:35-37 | filtering the filtered list again changes nothing |
| GroupList.GroupsOfAppend | app/screens/GroupListScreen.tsx:35-37 | filtering a concatenation filters each part in place, which preserves order |
| GroupList.AllMemberIds | app/screens/GroupListScreen.tsx:41 | the id list is duplicate-free and holds every member of every group and nothing else |
| GroupList.AllMemberIdsOrder | app/screens/GroupListScreen.tsx:41 | the ids are ordered by first appearance across the groups |
| GroupList.FetchMembers | app/screens/GroupListScreen.tsx:51-70 | an empty id list issues no request and changes nothing. Otherwise only an ok response changes the table, and then the table is the one built from the returned users: every returned id is a key, and it maps to the last returned user with that id |
| GroupList.FetchGroups | app/screens/GroupListScreen.tsx:26-48 | on ok, the shown groups are exactly the returned groups that contain the current user, in order, A member request is made exactly when some group is kept, and it is the kept groups' distinct member ids in first-appearance order. Its ok response replaces the users table with the last-wins table of the returned users. No kept group, or a failed member fetch, leaves the table as it was. A failed group fetch changes nothing and asks for no users |
| GroupList.OrUnknown | app/screens/GroupListScreen.tsx:78 | a non-empty name is shown as is, and an empty one as "Unknown" |
| GroupList.MemberLabel | app/screens/GroupListScreen.tsx:74-80 | an id with no user shows as itself. A user with both names shows as "name surname". An empty name or surname is replaced by "Unknown", giving "Unknown surname", "name Unknown" or "Unknown Unknown" |
| GroupList.Labels | app/screens/GroupListScreen.tsx:73-82 | the rendered list has one entry per id, in the ids' order |
| GroupList.RenderGroupMembers | app/screens/GroupListScreen.tsx:73-82 | no ids render as the empty text, and a single id renders as its label |
| GroupList.RenderGroupMembersSnoc | app/screens/GroupListScreen.tsx:73-82 | one more id appends ", " and its entry to the rendered text |
| GroupList.MemberLabelCases | app/screens/GroupListScreen.tsx:74-80 | a known id renders as that user's name and surname, each replaced by "Unknown" when empty, joined by a space |
| GroupChat.SenderIds | app/screens/GroupChatScreen.tsx:33 | the sender ids are duplicate-free, in first-occurrence order, and are exactly the senders of the messages |
| GroupChat.FetchMessages | app/screens/GroupChatScreen.tsx:25-62 | on ok, the messages are replaced and a lookup is made for their distinct sender ids, in first-occurrence order. The users table changes only when both calls are ok, and then each returned user's id maps to the last returned user with that id. A failed fetch changes nothing |
| GroupChat.DisplayLineKeepsContent | app/screens/GroupChatScreen.tsx:105-107 | the line keeps the whole content: for one sender and one users table, two messages give the same line exactly when their contents are equal |
| GroupChat.DisplayLine | app/screens/GroupChatScreen.tsx:105-107 | a known sender with a non-empty name shows as "name surname: content", any other sender as "senderId: content". Every line ends with ": " and the content |
| GroupChat.SendMessage | app/screens/GroupChatScreen.tsx:65-91 | a blank draft sends nothing. Otherwise the untrimmed draft is sent under the hard-coded sender. On ok, exactly the returned message is appended at the end and the draft is cleared. Otherwise nothing changes |
| GroupChat.SendMessageOnlyAppends | app/screens/GroupChatScreen.tsx:78-90 | a send either leaves the message list alone or appends the returned message, and never reorders or drops messages |
| DirectMessage.Outgoing | app/screens/MessageScreen.tsx:45-51 | the outgoing message is from the current user to the friend, with the untrimmed draft as content and the clock's id and timestamp |
| DirectMessage.FetchMessages | app/screens/MessageScreen.tsx:27-39 | the history between the current user and the friend is always requested. An ok response replaces the history, anything else leaves it, and the draft is kept |
| DirectMessage.SendMessage | app/screens/MessageScreen.tsx:42-71 | a blank draft is a no-op. Otherwise the message is sent from the current user to the friend, carrying the untrimmed draft and the clock's id and timestamp. On ok, that same message is appended and the draft is cleared. Otherwise the state is unchanged |
| DirectMessage.SideOf | app/screens/MessageScreen.tsx:87 | a message is drawn as mine exactly when its sender is the current user |
| DirectMessage.SentMessagesAreMine | app/screens/MessageScreen.tsx:45-63 | whatever a send appends is drawn as mine and addressed to the friend |
| FriendRequests.SendFriendRequest | app/screens/FriendRequests.tsx:18-47 | an empty user id makes no request. Otherwise a PENDING request from the placeholder requester to that user is sent. Only an ok response clears the field, and nothing else changes |
| FriendRequests.CheckFriendRequest | app/screens/FriendRequests.tsx:50-79 | an empty request id makes no request. An ok response adopts the returned status. A 404, another error or an exception changes nothing |
| FriendRequests.AcceptFriendRequest | app/screens/FriendRequests.tsx:82-103 | an empty request id makes no request. The status becomes ACCEPTED exactly on an ok response, unless it already was. Nothing else changes |
| FriendRequests.RejectFriendRequest | app/screens/FriendRequests.tsx:106-127 | an empty request id makes no request. The status becomes REJECTED exactly on an ok response, unless it already was. Nothing else changes |
| FriendRequests.DecisionButtonsShown | app/screens/FriendRequests.tsx:154 | the accept and reject buttons show exactly when a status is held and it is not the empty text. No status or an empty status hides them |
| FriendRequests.RunCallsWellFormed | app/screens/FriendRequests.tsx:18-127 | over any sequence of events, every create call names a recipient with status PENDING, and every check, accept or reject call carries a non-empty id |
| FriendRequests.NoDecisionBeforeCheck | app/screens/FriendRequests.tsx:154-164 | from the empty form, every accept or reject call comes after some check call, because the buttons appear only once a status is held |
| FriendRequests.StatusOnlyAfterCheck | app/screens/FriendRequests.tsx:64-66 | from the empty form, a status is held only after a check call has been made |
| FriendList.CounterpartId | app/screens/FriendListScreen.tsx:66-67 | the friend id is the requester when the current user is the recipient, and the recipient otherwise |
| FriendList.CounterpartIsOtherParty | app/screens/FriendListScreen.tsx:66-67 | in a friendship between two different users that involves the current user, the friend id is the other user |
| FriendList.LookupDetails | app/screens/FriendListScreen.tsx:40-54 | the returned names on ok, and "Unknown" "User" on a non-ok response or an exception |
| FriendList.Rows | app/screens/FriendListScreen.tsx:64-79 | one row per friendship, in order, carrying the friendship id, the counterpart id and the looked-up names |
| FriendList.FetchFriends | app/screens/FriendListScreen.tsx:20-88 | a missing or empty user id fetches nothing. On ok, the list is replaced by one row per friendship, in order. Each row has the friendship id, the other party's id, and the names looked up for that party ("Unknown" "User" when the lookup failed). Any other outcome leaves the list |
| FriendList.Missing | app/screens/FriendListScreen.tsx:21 | the user id counts as missing exactly when the route gave none or gave the empty text |
| FriendList.OpenChat | app/screens/FriendListScreen.tsx:104-115 | the conversation opens with the row's friend id and the exact name the row displays |
| FriendList.DisplayName | app/screens/FriendListScreen.tsx:104 | a row shows its first name, one space, then its last name |
| FriendList.FailedLookupShowsUnknown | app/screens/FriendListScreen.tsx:47-53 | a row whose lookup failed displays "Unknown User" |
| FriendList.ChatFromRowReachesFriend | app/screens/FriendListScreen.tsx:106-116 | a message sent from a conversation opened on a row goes from the current user to the other party of that friendship, never back to the sender |

## Left out

- HTTP itself is not modelled: `fetch`, URL construction (including the unencoded query strings), headers, JSON encoding and parsing, `Alert` and `console`. Each call is an abstract response, and a body that fails to parse counts as `Exception`.
- React rendering, styles, hooks and navigation are not modelled. Only the values the screens compute for display are.
- The group-details screen, the login screen, the home screen and the app shell are not modelled. They hold only a fetch, locale-dependent date display and navigation.
- The conversation screen takes the message id from `Date.now()` and the timestamp from `new Date().toISOString()`. Both are clock values and are parameters of `DirectMessage.SendMessage`.
- The order in which concurrent fetches complete is not modelled, including `Promise.all` and the group chat's fire-and-forget user lookup. Every call is taken as already resolved.
- GroupList.FetchGroups: the `response.ok` checks in `fetchGroups` and `fetchMembers` are commented out. An error response whose body still parsed as a list would be used as if it were ok. The model treats every non-ok outcome as carrying no usable list, so the state is unchanged.
- FriendList.Rows: the user lookup is a function of the user id. Two friendships with the same counterpart therefore get the same answer, whereas the screen makes one request per friendship.
- JSON fields that might be absent (`undefined`) are modelled as always-present strings. A check response without `status`, or a user without `surname`, would display differently in the screen.
- The id-to-user tables are JavaScript objects in the screens and Dafny maps here, without the keys every object inherits from `Object.prototype`. Member and sender ids are free text, so an id such as "constructor" renders differently: the screen finds the inherited `Object` function ("Object Unknown" in the group list, a misread sender in the group chat), while the model shows the id itself. Likewise, assigning a user with id "__proto__" creates no key in the screen but does in the model.
- Route parameters are modelled as single strings. `useLocalSearchParams` may also yield arrays.

=== FILE: api.dfy ===
/** Shared shapes for the screens: optional values, the abstract outcome of
    one HTTP call, and the result of one user action on a screen. */
module Api {

  datatype Option<+T> = None | Some(value: T)

  /** What one `fetch` call amounts to once its body has been read:
      - Ok: a 2xx response whose JSON body parsed to `payload`;
      - NotFound: a 404 response;
      - OtherError: any other non-2xx response;
      - Exception: the network call or the JSON parse threw. */
  datatype Response<+T> = Ok(payload: T) | NotFound | OtherError | Exception

  /** The screen state after a user action, together with the request the
      action issued (None when a guard stopped it before any network call). */
  datatype Step<+S, +R> = Step(state: S, request: Option<R>)

  /** A JavaScript string is truthy exactly when it is not empty. */
  predicate Truthy(s: string) {
    s != ""
  }
}

=== FILE: create_group.dfy ===
/** The group-creation form (app/screens/CreateGroupScreen.tsx): a group name,
    a list of member ids built one at a time, and the draft id being typed. */
module CreateGroup {
  import opened Api
  import opened Text
  import opened Seqs

  /** The id the screen sends as the group's creator; it is hard-coded. */
  const CreatorId: string := "676eaf9c383d346fef2cce5d"

  datatype State = State(groupName: string, members: seq<string>, newMember: string)

  /** The form as it first appears. */
  const Initial: State := State("", [], "")

  /** The request `createGroup` issues: name and creator travel in the query
      string, the member ids as the JSON body. */
  datatype CreateRequest = CreateRequest(name: string, creatorId: string, memberIds: seq<string>)

  /** What the member list always satisfies: no id twice, and every id
      non-empty with no whitespace at either end. */
  ghost predicate ValidMembers(ms: seq<string>) {
    && NoDup(ms)
    && forall k :: 0 <= k < |ms| ==> ms[k] != "" && IsTrimmed(ms[k])
  }

  /** `addMember`: the trimmed draft joins the end of the list when it is
      non-empty and not listed yet, and the draft is cleared; otherwise
      nothing changes. */
  function AddMember(s: State): (r: State)
    ensures r.groupName == s.groupName
    ensures |s.members| <= |r.members| <= |s.members| + 1
    ensures r.members[..|s.members|] == s.members
    ensures r.members != s.members <==> !IsBlank(s.newMember) && Trim(s.newMember) !in s.members
    ensures r.members != s.members ==> r.members[|s.members|] == Trim(s.newMember) && r.newMember == ""
    ensures r.members == s.members ==> r == s
    ensures ValidMembers(s.members) ==> ValidMembers(r.members)
  {
    var t := Trim(s.newMember);
    if t != "" && t !in s.members then
      s.(members := AppendNew(s.members, t), newMember := "")
    else
      s
  }

  /** `createGroup`: the request is always issued, with the current name and
      list. An ok response empties the name and the list; any other outcome
      leaves the form as it was. The draft id is never touched. */
  function CreateGroup(s: State, response: Response<()>): (r: Step<State, CreateRequest>)
    ensures r.request == Some(CreateRequest(s.groupName, CreatorId, s.members))
    ensures r.state.newMember == s.newMember
    ensures response.Ok? ==> r.state.groupName == "" && r.state.members == []
    ensures !response.Ok? ==> r.state == s
  {
    match response
    case Ok(_) => Step(s.(groupName := "", members := []), Some(CreateRequest(s.groupName, CreatorId, s.members)))
    case _ => Step(s, Some(CreateRequest(s.groupName, CreatorId, s.members)))
  }

  /** Adding the same text twice in a row (the draft is cleared by a
      successful add, so the user types it again) gives the list one add
      gives. */
  lemma AddMemberIdempotent(s: State, text: string)
    ensures var once := AddMember(s.(newMember := text));
      AddMember(once.(newMember := text)).members == once.members
  {
  }

  /** What the user can do on the form. */
  datatype Event =
    | EditGroupName(text: string)
    | EditNewMember(text: string)
    | PressAdd
    | PressCreate(response: Response<()>)

  function Apply(s: State, e: Event): State {
    match e
    case EditGroupName(text) => s.(groupName := text)
    case EditNewMember(text) => s.(newMember := text)
    case PressAdd => AddMember(s)
    case PressCreate(response) => CreateGroup(s, response).state
  }

  /** The form after the events, oldest first. */
  function Run(s: State, events: seq<Event>): State
    decreases |events|
  {
    if |events| == 0 then s else Apply(Run(s, events[..|events| - 1]), events[|events| - 1])
  }

  /** Whatever the user types and presses, starting from the empty form, the
      member list stays duplicate-free and holds only trimmed, non-empty ids. */
  lemma {:induction false} MembersAlwaysValid(events: seq<Event>)
    ensures ValidMembers(Run(Initial, events).members)
  {
    RunKeepsValid(Initial, events);
  }

  lemma {:induction false} RunKeepsValid(s: State, events: seq<Event>)
    requires ValidMembers(s.members)
    ensures ValidMembers(Run(s, events).members)
    decreases |events|
  {
    if |events| > 0 {
      RunKeepsValid(s, events[..|events| - 1]);
    }
  }
}

=== FILE: direct_message.dfy ===
/** A one-to-one conversation (app/screens/MessageScreen.tsx): the history
    between the current user and a friend, and a draft. */
module DirectMessage {
  import opened Api
  import opened Text

  datatype Message = Message(id: string, senderId: string, recipientId: string, content: string, timestamp: string)

  datatype State = State(messages: seq<Message>, newMessage: string)

  /** The pair of users whose history `fetchMessages` asks for, in the order
      the path `/messages/chat/{currentUserId}/{friendId}` names them. */
  datatype ChatQuery = ChatQuery(currentUserId: string, friendId: string)

  /** Which side of the conversation a message is drawn on. */
  datatype Side = Mine | Theirs

  /** The message `sendMessage` builds. Its id and timestamp come from the
      clock and are taken here as given. */
  function Outgoing(currentUserId: string, friendId: string, draft: string, clockId: string, clockTimestamp: string): (m: Message)
    ensures m.senderId == currentUserId && m.recipientId == friendId
    ensures m.content == draft
    ensures m.id == clockId && m.timestamp == clockTimestamp
  {
    Message(clockId, currentUserId, friendId, draft, clockTimestamp)
  }

  /** `fetchMessages`: the history between the two users is always asked
      for; an ok response replaces the history, anything else leaves it. The
      draft is never touched. */
  function FetchMessages(s: State, currentUserId: string, friendId: string, response: Response<seq<Message>>): (r: Step<State, ChatQuery>)
    ensures r.request == Some(ChatQuery(currentUserId, friendId))
    ensures r.state.newMessage == s.newMessage
    ensures response.Ok? ==> r.state.messages == response.payload
    ensures !response.Ok? ==> r.state == s
  {
    var query := ChatQuery(currentUserId, friendId);
    match response
    case Ok(data) => Step(s.(messages := data), Some(query))
    case _ => Step(s, Some(query))
  }

  /** `sendMessage`: a draft that is blank after trimming is ignored.
      Otherwise the untrimmed draft is sent as a message from the current
      user to the friend; an ok response appends that very message and
      clears the draft, and any other outcome leaves the state as it was. */
  function SendMessage(s: State, currentUserId: string, friendId: string, clockId: string, clockTimestamp: string, response: Response<()>): (r: Step<State, Message>)
    ensures IsBlank(s.newMessage) <==> r.request.None?
    ensures r.request.Some? ==>
      var m := r.request.value;
      m.senderId == currentUserId && m.recipientId == friendId && m.content == s.newMessage
    ensures r.request.Some? ==> r.request.value == Outgoing(currentUserId, friendId, s.newMessage, clockId, clockTimestamp)
    ensures r.request.Some? && response.Ok? ==>
      r.state == State(s.messages + [r.request.value], "")
    ensures r.request.None? || !response.Ok? ==> r.state == s
  {
    if IsBlank(s.newMessage) then Step(s, None)
    else
      var m := Outgoing(currentUserId, friendId, s.newMessage, clockId, clockTimestamp);
      match response
      case Ok(_) => Step(State(s.messages + [m], ""), Some(m))
      case _ => Step(s, Some(m))
  }

  /** A message is drawn on the current user's side exactly when they sent it. */
  function SideOf(m: Message, currentUserId: string): (side: Side)
    ensures side == Mine <==> m.senderId == currentUserId
  {
    if m.senderId == currentUserId then Mine else Theirs
  }

  /** Whatever this screen appends to the history is shown as the current
      user's own message, and it is addressed to the friend. */
  lemma SentMessagesAreMine(s: State, currentUserId: string, friendId: string, clockId: string, clockTimestamp: string, response: Response<()>)
    ensures var r := SendMessage(s, currentUserId, friendId, clockId, clockTimestamp, response).state;
      forall k :: |s.messages| <= k < |r.messages| ==>
        SideOf(r.messages[k], currentUserId) == Mine && r.messages[k].recipientId == friendId
  {
  }
}

=== FILE: friend_list.dfy ===
/** The friend list (app/screens/FriendListScreen.tsx): the signed-in user's
    accepted friendships, each shown as the other party's name, with a
    button that opens the conversation with that party. */
module FriendList {
  import opened Api
  import DirectMessage

  /** An accepted friendship as `/friends/accepted/{userId}` returns it. */
  datatype Friendship = Friendship(id: string, requesterId: string, recipientId: string)

  /** The name fields `/users/{id}` returns. */
  datatype UserDetails = UserDetails(firstName: string, lastName: string)

  /** One row of the list: the friendship id, the other party's id and name. */
  datatype Friend = Friend(id: string, friendId: string, firstName: string, lastName: string)

  datatype State = State(friends: seq<Friend>)

  /** The route parameters handed to the conversation screen. */
  datatype ChatParams = ChatParams(currentUserId: string, friendId: string, friendName: string)

  /** The names used when a user lookup fails. */
  const UnknownUser: UserDetails := UserDetails("Unknown", "User")

  /** The party of the friendship who is not the current user: the requester
      when the current user received the request, the recipient otherwise. */
  function CounterpartId(f: Friendship, currentUserId: string): (r: string)
    ensures r == f.requesterId || r == f.recipientId
    ensures f.recipientId == currentUserId ==> r == f.requesterId
    ensures f.recipientId != currentUserId ==> r == f.recipientId
  {
    if f.recipientId == currentUserId then f.requesterId else f.recipientId
  }

  /** In a friendship between two different users that involves the current
      user, the counterpart is the other user. */
  lemma CounterpartIsOtherParty(f: Friendship, currentUserId: string)
    requires currentUserId == f.requesterId || currentUserId == f.recipientId
    requires f.requesterId != f.recipientId
    ensures CounterpartId(f, currentUserId) != currentUserId
    ensures {CounterpartId(f, currentUserId), currentUserId} == {f.requesterId, f.recipientId}
  {
  }

  /** `fetchUserDetails`: the returned names on an ok response, "Unknown
      User" on a non-ok response or an exception. */
  function LookupDetails(response: Response<UserDetails>): (d: UserDetails)
    ensures response.Ok? ==> d == response.payload
    ensures !response.Ok? ==> d == UnknownUser
  {
    match response
    case Ok(details) => details
    case _ => UnknownUser
  }

  /** The rows built from the server's friendships, one per friendship and
      in the same order; `lookup` is what `/users/{id}` answers for each id. */
  function Rows(data: seq<Friendship>, currentUserId: string, lookup: string -> Response<UserDetails>): (r: seq<Friend>)
    ensures |r| == |data|
    ensures forall i :: 0 <= i < |data| ==>
      && r[i].id == data[i].id
      && r[i].friendId == CounterpartId(data[i], currentUserId)
      && UserDetails(r[i].firstName, r[i].lastName) == LookupDetails(lookup(r[i].friendId))
  {
    seq(|data|, i requires 0 <= i < |data| =>
      var friendId := CounterpartId(data[i], currentUserId);
      var details := LookupDetails(lookup(friendId));
      Friend(data[i].id, friendId, details.firstName, details.lastName))
  }

  /** The screen's user id is missing when the route gave none or gave "". */
  function Missing(currentUserId: Option<string>): (r: bool)
    ensures r <==> currentUserId == None || currentUserId == Some("")
  {
    currentUserId.None? || !Truthy(currentUserId.value)
  }

  /** The effect on mount: with no user id nothing is fetched; otherwise an
      ok response replaces the list by its rows, and any other outcome
      leaves the list as it was. The request is the user id the list is
      fetched for. */
  function FetchFriends(s: State, currentUserId: Option<string>, response: Response<seq<Friendship>>, lookup: string -> Response<UserDetails>): (r: Step<State, string>)
    ensures r.request.None? <==> Missing(currentUserId)
    ensures r.request.Some? ==> r.request.value == currentUserId.value
    ensures r.request.None? || !response.Ok? ==> r.state == s
    ensures r.request.Some? && response.Ok? ==>
      && |r.state.friends| == |response.payload|
      && forall i :: 0 <= i < |response.payload| ==>
           r.state.friends[i].id == response.payload[i].id
           && r.state.friends[i].friendId == CounterpartId(response.payload[i], currentUserId.value)
           && UserDetails(r.state.friends[i].firstName, r.state.friends[i].lastName)
              == LookupDetails(lookup(r.state.friends[i].friendId))
  {
    if Missing(currentUserId) then Step(s, None)
    else
      match response
      case Ok(data) => Step(State(Rows(data, currentUserId.value, lookup)), Some(currentUserId.value))
      case _ => Step(s, Some(currentUserId.value))
  }

  /** The text shown for a row: first and last name separated by a space. */
  function DisplayName(f: Friend): (r: string)
    ensures |r| == |f.firstName| + 1 + |f.lastName|
    ensures r[..|f.firstName|] == f.firstName && r[|f.firstName|] == ' ' && r[|f.firstName| + 1..] == f.lastName
  {
    f.firstName + " " + f.lastName
  }

  /** The "Send Message" button of a row opens the conversation with that
      row's friend, under the very name the row shows. */
  function OpenChat(f: Friend, currentUserId: string): (p: ChatParams)
    ensures p.friendName == DisplayName(f)
    ensures p.friendId == f.friendId && p.currentUserId == currentUserId
  {
    ChatParams(currentUserId, f.friendId, f.firstName + " " + f.lastName)
  }

  /** A row whose lookup failed reads "Unknown User". */
  lemma FailedLookupShowsUnknown(data: seq<Friendship>, currentUserId: string, lookup: string -> Response<UserDetails>, i: nat)
    requires i < |data|
    requires !lookup(CounterpartId(data[i], currentUserId)).Ok?
    ensures DisplayName(Rows(data, currentUserId, lookup)[i]) == "Unknown User"
  {
  }

  /** A message typed in a conversation opened from a row goes from the
      current user to the other party of that row's friendship, never back
      to the current user. */
  lemma ChatFromRowReachesFriend(data: seq<Friendship>, currentUserId: string, lookup: string -> Response<UserDetails>, i: nat,
                                 chat: DirectMessage.State, clockId: string, clockTimestamp: string, response: Response<()>)
    requires i < |data|
    requires currentUserId == data[i].requesterId || currentUserId == data[i].recipientId
    requires data[i].requesterId != data[i].recipientId
    ensures var p := OpenChat(Rows(data, currentUserId, lookup)[i], currentUserId);
      var sent := DirectMessage.SendMessage(chat, p.currentUserId, p.friendId, clockId, clockTimestamp, response).request;
      sent.Some? ==>
        && sent.value.senderId == currentUserId
        && sent.value.recipientId != currentUserId
        && sent.value.recipientId in {data[i].requesterId, data[i].recipientId}
  {
    CounterpartIsOtherParty(data[i], currentUserId);
  }
}

=== FILE: friend_requests.dfy ===
/** The friend-request form (app/screens/FriendRequests.tsx): a user id to
    send a request to, a request id to look up, and the looked-up status. */
module FriendRequests {
  import opened Api

  /** The requester id the screen sends; it is a literal placeholder, not
      the signed-in user's id. */
  const RequesterPlaceholder: string := "CURRENT_USER_ID"
  const Pending: string := "PENDING"
  const Accepted: string := "ACCEPTED"
  const Rejected: string := "REJECTED"

  datatype State = State(searchUserId: string, requestId: string, requestStatus: Option<string>)

  const Initial: State := State("", "", None)

  /** A friend request as `/friends/pending/{id}` returns it. */
  datatype PendingRequest = PendingRequest(id: string, requesterId: string, recipientId: string, status: string)

  datatype FriendRequestBody = FriendRequestBody(requesterId: string, recipientId: string, status: string)

  /** The calls the screen makes. */
  datatype Request =
    | Create(body: FriendRequestBody)
    | Check(checkId: string)
    | Accept(acceptId: string)
    | Reject(rejectId: string)

  /** `sendFriendRequest`: an empty user id is refused before any call.
      Otherwise a PENDING request to that user is sent; only an ok response
      clears the field, and nothing else ever changes. */
  function SendFriendRequest(s: State, response: Response<()>): (r: Step<State, Request>)
    ensures r.request.None? <==> s.searchUserId == ""
    ensures r.request.Some? ==>
      r.request.value == Create(FriendRequestBody(RequesterPlaceholder, s.searchUserId, Pending))
    ensures r.state.requestId == s.requestId && r.state.requestStatus == s.requestStatus
    ensures r.state.searchUserId != s.searchUserId <==> r.request.Some? && response.Ok?
    ensures r.state.searchUserId != s.searchUserId ==> r.state.searchUserId == ""
  {
    if !Truthy(s.searchUserId) then Step(s, None)
    else
      var request := Create(FriendRequestBody(RequesterPlaceholder, s.searchUserId, Pending));
      match response
      case Ok(_) => Step(s.(searchUserId := ""), Some(request))
      case _ => Step(s, Some(request))
  }

  /** `checkFriendRequest`: an empty request id is refused before any call.
      Otherwise an ok response adopts the status the server returned; a 404,
      another error or an exception leaves everything as it was. */
  function CheckFriendRequest(s: State, response: Response<PendingRequest>): (r: Step<State, Request>)
    ensures r.request.None? <==> s.requestId == ""
    ensures r.request.Some? ==> r.request.value == Check(s.requestId)
    ensures r.state.searchUserId == s.searchUserId && r.state.requestId == s.requestId
    ensures r.request.Some? && response.Ok? ==> r.state.requestStatus == Some(response.payload.status)
    ensures r.request.None? || !response.Ok? ==> r.state == s
  {
    if !Truthy(s.requestId) then Step(s, None)
    else
      match response
      case Ok(found) => Step(s.(requestStatus := Some(found.status)), Some(Check(s.requestId)))
      case _ => Step(s, Some(Check(s.requestId)))
  }

  /** `acceptFriendRequest`: refused on an empty request id; otherwise the
      status becomes ACCEPTED on an ok response and stays otherwise. */
  function AcceptFriendRequest(s: State, response: Response<()>): (r: Step<State, Request>)
    ensures r.request.None? <==> s.requestId == ""
    ensures r.request.Some? ==> r.request.value == Accept(s.requestId)
    ensures r.state.searchUserId == s.searchUserId && r.state.requestId == s.requestId
    ensures r.state.requestStatus != s.requestStatus ==> r.state.requestStatus == Some(Accepted)
    ensures r.state.requestStatus == Some(Accepted) <==> (r.request.Some? && response.Ok?) || s.requestStatus == Some(Accepted)
  {
    if !Truthy(s.requestId) then Step(s, None)
    else
      match response
      case Ok(_) => Step(s.(requestStatus := Some(Accepted)), Some(Accept(s.requestId)))
      case _ => Step(s, Some(Accept(s.requestId)))
  }

  /** `rejectFriendRequest`: as accepting, with REJECTED. */
  function RejectFriendRequest(s: State, response: Response<()>): (r: Step<State, Request>)
    ensures r.request.None? <==> s.requestId == ""
    ensures r.request.Some? ==> r.request.value == Reject(s.requestId)
    ensures r.state.searchUserId == s.searchUserId && r.state.requestId == s.requestId
    ensures r.state.requestStatus != s.requestStatus ==> r.state.requestStatus == Some(Rejected)
    ensures r.state.requestStatus == Some(Rejected) <==> (r.request.Some? && response.Ok?) || s.requestStatus == Some(Rejected)
  {
    if !Truthy(s.requestId) then Step(s, None)
    else
      match response
      case Ok(_) => Step(s.(requestStatus := Some(Rejected)), Some(Reject(s.requestId)))
      case _ => Step(s, Some(Reject(s.requestId)))
  }

  /** The accept and reject buttons are rendered under `requestStatus && …`:
      only when a status is held and it is not the empty string. */
  function DecisionButtonsShown(s: State): (r: bool)
    ensures s.requestStatus == None ==> !r
    ensures s.requestStatus == Some("") ==> !r
    ensures s.requestStatus.Some? && |s.requestStatus.value| > 0 ==> r
  {
    s.requestStatus.Some? && Truthy(s.requestStatus.value)
  }

  /** What the user can do on the form. Accept and reject are presses on
      buttons that exist only while `DecisionButtonsShown`. */
  datatype Event =
    | EditSearchUserId(text: string)
    | EditRequestId(text: string)
    | PressSend(sendResponse: Response<()>)
    | PressCheck(checkResponse: Response<PendingRequest>)
    | PressAccept(acceptResponse: Response<()>)
    | PressReject(rejectResponse: Response<()>)

  function Apply(s: State, e: Event): Step<State, Request> {
    match e
    case EditSearchUserId(text) => Step(s.(searchUserId := text), None)
    case EditRequestId(text) => Step(s.(requestId := text), None)
    case PressSend(response) => SendFriendRequest(s, response)
    case PressCheck(response) => CheckFriendRequest(s, response)
    case PressAccept(response) => if DecisionButtonsShown(s) then AcceptFriendRequest(s, response) else Step(s, None)
    case PressReject(response) => if DecisionButtonsShown(s) then RejectFriendRequest(s, response) else Step(s, None)
  }

  /** The form and the calls made, after the events (oldest first). */
  datatype Trace = Trace(state: State, log: seq<Request>)

  function Run(s: State, events: seq<Event>): Trace
    decreases |events|
  {
    if |events| == 0 then Trace(s, [])
    else
      var before := Run(s, events[..|events| - 1]);
      var step := Apply(before.state, events[|events| - 1]);
      Trace(step.state, before.log + (if step.request.Some? then [step.request.value] else []))
  }

  /** Every call the form makes is well formed: a create call names a
      recipient and asks for a PENDING request, and every check, accept or
      reject call carries a request id. */
  ghost predicate WellFormed(q: Request) {
    match q
    case Create(body) => body.recipientId != "" && body.status == Pending && body.requesterId == RequesterPlaceholder
    case Check(id) => id != ""
    case Accept(id) => id != ""
    case Reject(id) => id != ""
  }

  lemma {:induction false} RunCallsWellFormed(s: State, events: seq<Event>)
    ensures forall k :: 0 <= k < |Run(s, events).log| ==> WellFormed(Run(s, events).log[k])
    decreases |events|
  {
    if |events| > 0 {
      RunCallsWellFormed(s, events[..|events| - 1]);
    }
  }

  predicate IsDecision(q: Request) {
    q.Accept? || q.Reject?
  }

  /** Every accept or reject call in `log` has a check call before it. */
  ghost predicate DecisionsFollowChecks(log: seq<Request>) {
    forall k :: 0 <= k < |log| && IsDecision(log[k]) ==> exists j :: 0 <= j < k && log[j].Check?
  }

  /** From the empty form, no accept or reject call is ever made before some
      check call: a status, and with it the decision buttons, appears only
      after a check. */
  lemma {:induction false} NoDecisionBeforeCheck(events: seq<Event>)
    ensures DecisionsFollowChecks(Run(Initial, events).log)
    decreases |events|
  {
    if |events| > 0 {
      var prefix := events[..|events| - 1];
      NoDecisionBeforeCheck(prefix);
      var before := Run(Initial, prefix);
      var step := Apply(before.state, events[|events| - 1]);
      var log := Run(Initial, events).log;
      assert log == before.log + (if step.request.Some? then [step.request.value] else []);
      forall k | 0 <= k < |log| && IsDecision(log[k])
        ensures exists j :: 0 <= j < k && log[j].Check?
      {
        if k < |before.log| {
          assert log[k] == before.log[k] && IsDecision(before.log[k]);
          var j :| 0 <= j < k && before.log[j].Check?;
          assert log[j] == before.log[j];
        } else {
          assert log[k] == step.request.value;
          assert DecisionButtonsShown(before.state);
          StatusOnlyAfterCheck(prefix);
          var j :| 0 <= j < |before.log| && before.log[j].Check?;
          assert log[j] == before.log[j];
        }
      }
    }
  }

  /** From the empty form, a status is held only once a check call has been
      made. */
  lemma {:induction false} StatusOnlyAfterCheck(events: seq<Event>)
    ensures var t := Run(Initial, events);
      t.state.requestStatus.Some? ==> exists j :: 0 <= j < |t.log| && t.log[j].Check?
    decreases |events|
  {
    if |events| > 0 {
      var prefix := events[..|events| - 1];
      StatusOnlyAfterCheck(prefix);
      var before := Run(Initial, prefix);
      var step := Apply(before.state, events[|events| - 1]);
      var t := Run(Initial, events);
      assert t.log == before.log + (if step.request.Some? then [step.request.value] else []);
      if t.state.requestStatus.Some? {
        if before.state.requestStatus.None? {
          assert step.request.Some? && step.request.value.Check?;
          assert t.log[|before.log|].Check?;
        } else {
          var j :| 0 <= j < |before.log| && before.log[j].Check?;
          assert t.log[j] == before.log[j];
        }
      }
    }
  }
}

=== FILE: group_chat.dfy ===
/** A group's chat (app/screens/GroupChatScreen.tsx): the messages, a draft,
    and a table of the senders' user records for display. */
module GroupChat {
  import opened Api
  import opened Text
  import opened Seqs
  import opened Users

  /** The sender id every message from this screen is sent under; it is
      hard-coded. */
  const SenderId: string := "676ada3d372fdc341958fc55"

  datatype GroupMessage = GroupMessage(id: string, senderId: string, content: string)

  datatype State = State(messages: seq<GroupMessage>, newMessage: string, users: map<string, User>)

  /** The POST `sendMessage` issues: the group in the path, the sender in the
      query string, and the draft as the JSON body. */
  datatype SendRequest = SendRequest(groupId: string, senderId: string, body: string)

  function Senders(msgs: seq<GroupMessage>): (r: seq<string>)
    ensures |r| == |msgs| && forall i :: 0 <= i < |msgs| ==> r[i] == msgs[i].senderId
  {
    seq(|msgs|, i requires 0 <= i < |msgs| => msgs[i].senderId)
  }

  /** `[...new Set(data.map(m => m.senderId))]`: each sender once. */
  function SenderIds(msgs: seq<GroupMessage>): (r: seq<string>)
    ensures NoDup(r)
    ensures forall k :: 0 <= k < |r| ==> exists i :: 0 <= i < |msgs| && msgs[i].senderId == r[k]
    ensures forall i :: 0 <= i < |msgs| ==> msgs[i].senderId in r
    ensures InFirstOccurrenceOrder(r, Senders(msgs))
  {
    var all := Senders(msgs);
    DedupFirstOccurrenceOrder(all);
    var r := Dedup(all);
    assert forall i :: 0 <= i < |msgs| ==> all[i] in r;
    assert forall k :: 0 <= k < |r| ==> r[k] in all;
    r
  }

  /** `fetchMessages` with the user lookup it starts: an ok response
      replaces the messages and asks for the users behind every sender (even
      when there are none); the users table is replaced only when that
      lookup is ok. A failed message fetch changes nothing and asks for no
      users. */
  function FetchMessages(s: State, messagesResponse: Response<seq<GroupMessage>>, usersResponse: Response<seq<User>>): (r: Step<State, seq<string>>)
    ensures r.state.newMessage == s.newMessage
    ensures !messagesResponse.Ok? ==> r == Step(s, None)
    ensures messagesResponse.Ok? ==>
      && r.state.messages == messagesResponse.payload
      && r.request == Some(SenderIds(messagesResponse.payload))
      && NoDup(r.request.value)
      && (forall i :: 0 <= i < |r.state.messages| ==> r.state.messages[i].senderId in r.request.value)
      && (forall k :: 0 <= k < |r.request.value| ==>
            exists i :: 0 <= i < |r.state.messages| && r.state.messages[i].senderId == r.request.value[k])
    ensures r.state.users != s.users ==> messagesResponse.Ok? && usersResponse.Ok?
    ensures messagesResponse.Ok? && usersResponse.Ok? ==> r.state.users == UserMap(usersResponse.payload)
  {
    match messagesResponse
    case Ok(data) =>
      var ids := SenderIds(data);
      var s1 := s.(messages := data);
      (match usersResponse
       case Ok(users) => Step(s1.(users := UserMap(users)), Some(ids))
       case _ => Step(s1, Some(ids)))
    case _ => Step(s, None)
  }

  /** The line shown for a message: "name surname: content" when the sender
      is known and has a non-empty name, "senderId: content" otherwise. */
  function DisplayLine(m: GroupMessage, users: map<string, User>): (r: string)
    ensures m.senderId in users && users[m.senderId].name != "" ==>
      r == users[m.senderId].name + " " + users[m.senderId].surname + ": " + m.content
    ensures m.senderId !in users || users[m.senderId].name == "" ==> r == m.senderId + ": " + m.content
    ensures |m.content| + 2 <= |r| && r[|r| - |m.content| - 2..] == ": " + m.content
  {
    if m.senderId in users && users[m.senderId].name != "" then
      users[m.senderId].name + " " + users[m.senderId].surname + ": " + m.content
    else
      m.senderId + ": " + m.content
  }

  /** The line keeps the whole content: two messages from the same sender,
      shown against the same users table, give the same line only when
      their contents are equal. */
  lemma DisplayLineKeepsContent(m1: GroupMessage, m2: GroupMessage, users: map<string, User>)
    requires m1.senderId == m2.senderId
    ensures DisplayLine(m1, users) == DisplayLine(m2, users) <==> m1.content == m2.content
  {
    var line1, line2 := DisplayLine(m1, users), DisplayLine(m2, users);
    if line1 == line2 {
      var prefix := |line1| - |m1.content|;
      assert |m1.content| == |m2.content| by {
        var who := if m1.senderId in users && users[m1.senderId].name != ""
          then users[m1.senderId].name + " " + users[m1.senderId].surname else m1.senderId;
        assert line1 == who + ": " + m1.content && line2 == who + ": " + m2.content;
      }
      assert m1.content == line1[prefix..] == line2[prefix..] == m2.content;
    }
  }

  /** `sendMessage`: a draft that is blank after trimming sends nothing and
      changes nothing. Otherwise the untrimmed draft is sent; an ok response
      appends the returned message at the end and clears the draft, any
      other outcome leaves the state as it was. */
  function SendMessage(s: State, groupId: string, response: Response<GroupMessage>): (r: Step<State, SendRequest>)
    ensures r.state.users == s.users
    ensures IsBlank(s.newMessage) <==> r.request.None?
    ensures r.request.Some? ==> r.request.value == SendRequest(groupId, SenderId, s.newMessage)
    ensures r.request.Some? && response.Ok? ==>
      && |r.state.messages| == |s.messages| + 1
      && r.state.messages[..|s.messages|] == s.messages
      && r.state.messages[|s.messages|] == response.payload
      && r.state.newMessage == ""
    ensures r.request.None? || !response.Ok? ==> r.state == s
  {
    if IsBlank(s.newMessage) then Step(s, None)
    else
      var request := SendRequest(groupId, SenderId, s.newMessage);
      match response
      case Ok(sent) => Step(s.(messages := s.messages + [sent], newMessage := ""), Some(request))
      case _ => Step(s, Some(request))
  }

  /** Only a successful send changes the message list, and then it grows by
      exactly one: earlier messages are never lost or reordered. */
  lemma SendMessageOnlyAppends(s: State, groupId: string, response: Response<GroupMessage>)
    ensures var r := SendMessage(s, groupId, response).state;
      r.messages == s.messages || (response.Ok? && r.messages == s.messages + [response.payload])
  {
  }
}

=== FILE: group_list.dfy ===
/** The group list (app/screens/GroupListScreen.tsx): the groups the current
    user belongs to, and a table of the users in them for display. */
module GroupList {
  import opened Api
  import opened Text
  import opened Seqs
  import opened Users

  /** The user the screen shows groups for; it is hard-coded. */
  const CurrentUserId: string := "676eaf9c383d346fef2cce5d"

  datatype Group = Group(id: string, name: string, members: seq<string>)

  datatype State = State(groups: seq<Group>, members: map<string, User>)

  /** `data.filter(g => g.members.includes(userId))`. */
  function GroupsOf(gs: seq<Group>, userId: string): (r: seq<Group>)
    ensures |r| <= |gs|
    ensures forall k :: 0 <= k < |r| ==> userId in r[k].members
    decreases |gs|
  {
    if |gs| == 0 then []
    else if userId in gs[0].members then [gs[0]] + GroupsOf(gs[1..], userId)
    else GroupsOf(gs[1..], userId)
  }

  /** `r` holds exactly the groups of `gs` that list the user, each as many
      times as in `gs`, in their original order. */
  ghost predicate ExactlyGroupsOf(r: seq<Group>, gs: seq<Group>, userId: string) {
    && (forall k :: 0 <= k < |r| ==> r[k] in gs && userId in r[k].members)
    && (forall k :: 0 <= k < |gs| && userId in gs[k].members ==> gs[k] in r)
    && (forall g :: multiset(r)[g] == if userId in g.members then multiset(gs)[g] else 0)
    && Subseq(r, gs)
  }

  /** The kept groups are exactly the input groups that list the user, each
      as many times as in the input, in their original order. */
  lemma GroupsOfExact(gs: seq<Group>, userId: string)
    ensures ExactlyGroupsOf(GroupsOf(gs, userId), gs, userId)
  {
    GroupsOfMultiplicity(gs, userId);
    GroupsOfSubseq(gs, userId);
    var r := GroupsOf(gs, userId);
    forall k | 0 <= k < |r|
      ensures r[k] in gs && userId in r[k].members
    {
      assert r[k] in multiset(r);
    }
    forall k | 0 <= k < |gs| && userId in gs[k].members
      ensures gs[k] in r
    {
      assert gs[k] in multiset(gs);
    }
  }

  lemma {:induction false} GroupsOfMultiplicity(gs: seq<Group>, userId: string)
    ensures forall g :: multiset(GroupsOf(gs, userId))[g] == if userId in g.members then multiset(gs)[g] else 0
    decreases |gs|
  {
    if |gs| > 0 {
      GroupsOfMultiplicity(gs[1..], userId);
      assert gs == [gs[0]] + gs[1..];
    }
  }

  lemma {:induction false} GroupsOfSubseq(gs: seq<Group>, userId: string)
    ensures Subseq(GroupsOf(gs, userId), gs)
    decreases |gs|
  {
    if |gs| > 0 {
      GroupsOfSubseq(gs[1..], userId);
      var rest := GroupsOf(gs[1..], userId);
      if userId !in gs[0].members && |rest| > 0 {
        GroupsOfMultiplicity(gs[1..], userId);
        assert rest[0] in multiset(rest);
        assert rest[0] != gs[0];
      }
    }
  }

  /** Keeping only the user's groups twice is keeping them once. */
  lemma {:induction false} GroupsOfIdempotent(gs: seq<Group>, userId: string)
    ensures GroupsOf(GroupsOf(gs, userId), userId) == GroupsOf(gs, userId)
    decreases |gs|
  {
    if |gs| > 0 {
      GroupsOfIdempotent(gs[1..], userId);
    }
  }

  /** Filtering a list split in two filters each part. */
  lemma {:induction false} GroupsOfAppend(a: seq<Group>, b: seq<Group>, userId: string)
    ensures GroupsOf(a + b, userId) == GroupsOf(a, userId) + GroupsOf(b, userId)
    decreases |a|
  {
    if |a| == 0 {
      assert a + b == b;
    } else {
      var ab := a + b;
      assert ab[0] == a[0] && ab[1..] == a[1..] + b;
      GroupsOfAppend(a[1..], b, userId);
      var rest := GroupsOf(a[1..], userId) + GroupsOf(b, userId);
      if userId in a[0].members {
        calc {
          GroupsOf(ab, userId);
          [a[0]] + GroupsOf(ab[1..], userId);
          [a[0]] + rest;
          GroupsOf(a, userId) + GroupsOf(b, userId);
        }
      } else {
        calc {
          GroupsOf(ab, userId);
          GroupsOf(ab[1..], userId);
          rest;
          GroupsOf(a, userId) + GroupsOf(b, userId);
        }
      }
    }
  }

  function MemberLists(gs: seq<Group>): (r: seq<seq<string>>)
    ensures |r| == |gs| && forall i :: 0 <= i < |gs| ==> r[i] == gs[i].members
  {
    seq(|gs|, i requires 0 <= i < |gs| => gs[i].members)
  }

  /** `ids` lists every member of every group once, and nothing else. */
  ghost predicate ListsMembersOnce(ids: seq<string>, gs: seq<Group>) {
    && NoDup(ids)
    && (forall k :: 0 <= k < |ids| ==> exists i :: 0 <= i < |gs| && ids[k] in gs[i].members)
    && (forall i, k :: 0 <= i < |gs| && 0 <= k < |gs[i].members| ==> gs[i].members[k] in ids)
  }

  /** `[...new Set(groups.flatMap(g => g.members))]`: every member of every
      group once, in the order of first appearance. */
  function AllMemberIds(gs: seq<Group>): (r: seq<string>)
    ensures ListsMembersOnce(r, gs)
  {
    var all := Concat(MemberLists(gs));
    var r := Dedup(all);
    assert forall k :: 0 <= k < |r| ==> r[k] in all;
    r
  }

  /** The ids are listed in the order they first appear across the groups. */
  lemma AllMemberIdsOrder(gs: seq<Group>)
    ensures InFirstOccurrenceOrder(AllMemberIds(gs), Concat(MemberLists(gs)))
  {
    DedupFirstOccurrenceOrder(Concat(MemberLists(gs)));
  }

  /** `fetchMembers`: no request for an empty id list; otherwise an ok
      response replaces the table by one built from the returned users,
      and any other outcome leaves it as it was. */
  function FetchMembers(s: State, ids: seq<string>, response: Response<seq<User>>): (r: Step<State, seq<string>>)
    ensures r.state.groups == s.groups
    ensures r.request.None? <==> ids == []
    ensures r.request.Some? ==> r.request.value == ids
    ensures r.state.members != s.members ==> ids != [] && response.Ok?
    ensures ids != [] && response.Ok? ==> r.state.members == UserMap(response.payload)
  {
    if |ids| == 0 then Step(s, None)
    else
      match response
      case Ok(users) => Step(s.(members := UserMap(users)), Some(ids))
      case _ => Step(s, Some(ids))
  }

  /** `fetchGroups`: on an ok response the screen keeps the groups the
      current user belongs to and asks for the users of those groups; on any
      other outcome nothing changes and no user lookup is made. */
  function FetchGroups(s: State, groupsResponse: Response<seq<Group>>, usersResponse: Response<seq<User>>): (r: Step<State, seq<string>>)
    ensures groupsResponse.Ok? ==> ExactlyGroupsOf(r.state.groups, groupsResponse.payload, CurrentUserId)
    ensures !groupsResponse.Ok? ==> r == Step(s, None)
    ensures r.request.Some? ==> ListsMembersOnce(r.request.value, r.state.groups)
    ensures groupsResponse.Ok? ==> (r.request.Some? <==> r.state.groups != [])
    ensures groupsResponse.Ok? && r.state.groups != [] ==> r.request.value == AllMemberIds(r.state.groups)
    ensures groupsResponse.Ok? && r.state.groups != [] && usersResponse.Ok? ==>
      r.state.members == UserMap(usersResponse.payload)
    ensures groupsResponse.Ok? && (r.state.groups == [] || !usersResponse.Ok?) ==> r.state.members == s.members
  {
    match groupsResponse
    case Ok(data) =>
      var mine := GroupsOf(data, CurrentUserId);
      GroupsOfExact(data, CurrentUserId);
      var ids := AllMemberIds(mine);
      assert mine != [] ==> ids != [] by {
        if mine != [] {
          assert CurrentUserId in mine[0].members;
          var k :| 0 <= k < |mine[0].members| && mine[0].members[k] == CurrentUserId;
          assert mine[0].members[k] in ids;
        }
      }
      FetchMembers(s.(groups := mine), ids, usersResponse)
    case _ => Step(s, None)
  }

  /** How one member id is shown: a known user as name and surname, each
      "Unknown" when empty; an unknown id as the id itself. */
  function MemberLabel(id: string, members: map<string, User>): (r: string)
    ensures id !in members ==> r == id
    ensures id in members && members[id].name != "" && members[id].surname != "" ==>
      r == members[id].name + " " + members[id].surname
    ensures id in members && members[id].name == "" && members[id].surname != "" ==>
      r == "Unknown " + members[id].surname
    ensures id in members && members[id].name != "" && members[id].surname == "" ==>
      r == members[id].name + " Unknown"
    ensures id in members && members[id].name == "" && members[id].surname == "" ==> r == "Unknown Unknown"
  {
    if id in members then
      OrUnknown(members[id].name) + " " + OrUnknown(members[id].surname)
    else id
  }

  /** `text || "Unknown"`. */
  function OrUnknown(text: string): (r: string)
    ensures r != ""
    ensures text != "" ==> r == text
    ensures text == "" ==> r == "Unknown"
  {
    if text != "" then text else "Unknown"
  }

  /** `renderGroupMembers`: the labels of the ids, in order, joined by ", ". */
  function RenderGroupMembers(ids: seq<string>, members: map<string, User>): (r: string)
    ensures ids == [] ==> r == ""
    ensures |ids| == 1 ==> r == MemberLabel(ids[0], members)
  {
    Join(Labels(ids, members), ", ")
  }

  function Labels(ids: seq<string>, members: map<string, User>): (r: seq<string>)
    ensures |r| == |ids|
    ensures forall i :: 0 <= i < |ids| ==> r[i] == MemberLabel(ids[i], members)
  {
    seq(|ids|, i requires 0 <= i < |ids| => MemberLabel(ids[i], members))
  }

  /** One more id adds one more entry at the end of the rendered text. */
  lemma RenderGroupMembersSnoc(ids: seq<string>, id: string, members: map<string, User>)
    requires ids != []
    ensures RenderGroupMembers(ids + [id], members) == RenderGroupMembers(ids, members) + ", " + MemberLabel(id, members)
  {
    assert Labels(ids + [id], members) == Labels(ids, members) + [MemberLabel(id, members)];
    JoinSnoc(Labels(ids, members), MemberLabel(id, members), ", ");
  }

  /** A known id renders as that user's name and surname, each replaced by
      "Unknown" when empty, separated by a space. */
  lemma MemberLabelCases(id: string, members: map<string, User>)
    ensures id in members ==>
      MemberLabel(id, members) == OrUnknown(members[id].name) + " " + OrUnknown(members[id].surname)
  {
  }
}

=== FILE: seqs.dfy ===
/** Sequence facts the screens rely on: duplicate-freedom, the insertion order
    of a JavaScript `Set`, subsequences and flattening. */
module Seqs {

  predicate NoDup<T(==)>(s: seq<T>) {
    forall i, j :: 0 <= i < j < |s| ==> s[i] != s[j]
  }

  /** `a` and `b` hold the same elements, whatever their order and
      multiplicity. */
  ghost predicate SameElements<T>(a: seq<T>, b: seq<T>) {
    && (forall k :: 0 <= k < |a| ==> a[k] in b)
    && (forall k :: 0 <= k < |b| ==> b[k] in a)
  }

  lemma HeadIsElement<T>(a: seq<T>, b: seq<T>)
    requires SameElements(a, b)
    ensures |a| > 0 ==> a[0] in b
  {
  }

  /** Adds `x` at the end of `s` unless it is already there: what a JavaScript
      `Set` does on `add`, and what `[...prev, x]` guarded by `!prev.includes(x)`
      does to an array. */
  function AppendNew<T(==)>(s: seq<T>, x: T): (r: seq<T>)
    ensures |s| <= |r| <= |s| + 1 && r[..|s|] == s
    ensures x in r && forall k :: 0 <= k < |r| ==> r[k] in s || r[k] == x
    ensures NoDup(s) ==> NoDup(r)
    ensures x in s <==> r == s
  {
    if x in s then s else s + [x]
  }

  /** `[...new Set(xs)]`: each distinct element of `xs` once, in the order of
      its first occurrence. */
  function Dedup<T(==)>(xs: seq<T>): (r: seq<T>)
    ensures NoDup(r)
    ensures SameElements(r, xs)
    ensures |r| <= |xs|
    decreases |xs|
  {
    if |xs| == 0 then [] else AppendNew(Dedup(xs[..|xs| - 1]), xs[|xs| - 1])
  }

  /** The position of the first occurrence of `y` in `xs`. */
  function FirstIndex<T(==)>(xs: seq<T>, y: T): (i: nat)
    requires y in xs
    ensures i < |xs| && xs[i] == y
    ensures y !in xs[..i]
    decreases |xs|
  {
    if xs[0] == y then 0 else 1 + FirstIndex(xs[1..], y)
  }

  /** `r` lists elements of `xs` ordered by where they first occur in `xs`. */
  ghost predicate InFirstOccurrenceOrder<T>(r: seq<T>, xs: seq<T>) {
    && (forall k :: 0 <= k < |r| ==> r[k] in xs)
    && (forall i, j :: 0 <= i < j < |r| && r[i] in xs && r[j] in xs ==> FirstIndex(xs, r[i]) < FirstIndex(xs, r[j]))
  }

  /** Two positions holding `y`, neither preceded by another `y`, are the same
      position. */
  lemma FirstIndexUnique<T>(xs: seq<T>, y: T, i: nat)
    requires i < |xs| && xs[i] == y && y !in xs[..i]
    ensures FirstIndex(xs, y) == i
  {
  }

  /** Extending `xs` does not move the first occurrence of an element it
      already holds. */
  lemma FirstIndexExtend<T>(xs: seq<T>, ys: seq<T>, y: T)
    requires y in xs
    ensures y in xs + ys && FirstIndex(xs + ys, y) == FirstIndex(xs, y)
  {
    var f := FirstIndex(xs, y);
    assert (xs + ys)[..f] == xs[..f];
    FirstIndexUnique(xs + ys, y, f);
  }

  /** `Dedup` keeps first occurrences in order. */
  lemma {:induction false} DedupFirstOccurrenceOrder<T>(xs: seq<T>)
    ensures InFirstOccurrenceOrder(Dedup(xs), xs)
    decreases |xs|
  {
    if |xs| > 0 {
      var n := |xs| - 1;
      var p := xs[..n];
      DedupFirstOccurrenceOrder(p);
      assert xs == p + [xs[n]];
      assert xs[n] in Dedup(p) <==> xs[n] in p by {
        if xs[n] in p {
          var k :| 0 <= k < |p| && p[k] == xs[n];
        }
      }
      OrderExtends(p, xs[n], Dedup(p));
    }
  }

  /** A first-occurrence listing of `p` stays one of `p + [x]`, and
      appending `x` when it is new keeps it one. */
  lemma OrderExtends<T>(p: seq<T>, x: T, d: seq<T>)
    requires InFirstOccurrenceOrder(d, p)
    requires x in d <==> x in p
    ensures InFirstOccurrenceOrder(AppendNew(d, x), p + [x])
  {
    if x in d {
      assert AppendNew(d, x) == d;
      forall k | 0 <= k < |d|
        ensures FirstIndex(p + [x], d[k]) == FirstIndex(p, d[k])
      {
        FirstIndexExtend(p, [x], d[k]);
      }
    } else {
      OrderExtendsNew(p, x, d);
    }
  }

  /** The case of `OrderExtends` where `x` is new: it goes last in both. */
  lemma OrderExtendsNew<T>(p: seq<T>, x: T, d: seq<T>)
    requires InFirstOccurrenceOrder(d, p)
    requires x !in d && x !in p
    ensures InFirstOccurrenceOrder(d + [x], p + [x])
  {
    var xs := p + [x];
    var r := d + [x];
    forall k | 0 <= k < |d|
      ensures FirstIndex(xs, d[k]) == FirstIndex(p, d[k])
    {
      FirstIndexExtend(p, [x], d[k]);
    }
    FirstIndexUnique(xs, x, |p|);
    forall i, j | 0 <= i < j < |r| && r[i] in xs && r[j] in xs
      ensures FirstIndex(xs, r[i]) < FirstIndex(xs, r[j])
    {
      assert r[i] == d[i];
      if j < |d| {
        assert r[j] == d[j];
      }
    }
  }

  /** Any duplicate-free list of exactly the elements of `xs`, in
      first-occurrence order, is `Dedup(xs)`: the order is the only one
      possible. */
  lemma {:induction false} DedupUnique<T>(xs: seq<T>, r: seq<T>)
    requires NoDup(r)
    requires SameElements(r, xs)
    requires InFirstOccurrenceOrder(r, xs)
    ensures r == Dedup(xs)
    decreases |xs|
  {
    if |xs| == 0 {
      HeadIsElement(r, xs);
    } else {
      var n := |xs| - 1;
      var p := xs[..n];
      var x := xs[n];
      assert xs == p + [x];
      if x in p {
        OrderOnPrefix(xs, r, n);
        DedupUnique(p, r);
      } else {
        var q := DropLastNew(xs, r);
        DedupUnique(p, q);
      }
    }
  }

  /** When the last element of `xs` already occurred, `r` orders the
      elements of the prefix the same way. */
  lemma OrderOnPrefix<T>(xs: seq<T>, r: seq<T>, n: nat)
    requires n == |xs| - 1 && xs[n] in xs[..n]
    requires SameElements(r, xs)
    requires InFirstOccurrenceOrder(r, xs)
    ensures SameElements(r, xs[..n])
    ensures InFirstOccurrenceOrder(r, xs[..n])
  {
    var p := xs[..n];
    assert xs == p + [xs[n]];
    forall y | y in p
      ensures FirstIndex(xs, y) == FirstIndex(p, y)
    {
      FirstIndexExtend(p, [xs[n]], y);
    }
    forall k | 0 <= k < |r|
      ensures r[k] in p
    {
      assert r[k] in xs;
    }
  }

  /** When the last element of `xs` is new, it ends `r`, and what precedes
      it in `r` is a first-occurrence listing of the prefix. */
  lemma DropLastNew<T>(xs: seq<T>, r: seq<T>) returns (q: seq<T>)
    requires |xs| > 0 && xs[|xs| - 1] !in xs[..|xs| - 1]
    requires NoDup(r)
    requires SameElements(r, xs)
    requires InFirstOccurrenceOrder(r, xs)
    ensures r == q + [xs[|xs| - 1]]
    ensures NoDup(q)
    ensures SameElements(q, xs[..|xs| - 1])
    ensures InFirstOccurrenceOrder(q, xs[..|xs| - 1])
  {
    var n := |xs| - 1;
    LastNewEndsOrder(xs, r);
    q := r[..|r| - 1];
    assert r == q + [xs[n]];
    assert xs == xs[..n] + [xs[n]];
    PrefixElements(xs[..n], xs[n], q);
    PrefixOrder(xs[..n], xs[n], q);
  }

  lemma PrefixElements<T>(p: seq<T>, x: T, q: seq<T>)
    requires x !in p
    requires NoDup(q + [x])
    requires SameElements(q + [x], p + [x])
    ensures SameElements(q, p)
  {
    var r := q + [x];
    forall m | 0 <= m < |q|
      ensures q[m] in p
    {
      assert r[m] == q[m] && r[m] != r[|q|];
      assert r[m] in p + [x];
    }
    forall m | 0 <= m < |p|
      ensures p[m] in q
    {
      assert (p + [x])[m] == p[m];
      assert p[m] in r && p[m] != x;
    }
  }

  lemma PrefixOrder<T>(p: seq<T>, x: T, q: seq<T>)
    requires forall k :: 0 <= k < |q| ==> q[k] in p
    requires InFirstOccurrenceOrder(q + [x], p + [x])
    ensures InFirstOccurrenceOrder(q, p)
  {
    var xs := p + [x];
    var r := q + [x];
    forall i, j | 0 <= i < j < |q| && q[i] in p && q[j] in p
      ensures FirstIndex(p, q[i]) < FirstIndex(p, q[j])
    {
      assert r[i] == q[i] && r[j] == q[j];
      FirstIndexExtend(p, [x], q[i]);
      FirstIndexExtend(p, [x], q[j]);
    }
  }

  /** A last element of `xs` that is new comes last in any first-occurrence
      listing of `xs`. */
  lemma LastNewEndsOrder<T>(xs: seq<T>, r: seq<T>)
    requires |xs| > 0 && xs[|xs| - 1] !in xs[..|xs| - 1]
    requires SameElements(r, xs)
    requires InFirstOccurrenceOrder(r, xs)
    ensures |r| > 0 && r[|r| - 1] == xs[|xs| - 1]
  {
    var n := |xs| - 1;
    var x := xs[n];
    FirstIndexUnique(xs, x, n);
    assert x in r;
    forall k | 0 <= k < |r| - 1
      ensures r[k] != x
    {
      assert r[k] in xs && r[|r| - 1] in xs;
      assert FirstIndex(xs, r[k]) < FirstIndex(xs, r[|r| - 1]) < |xs|;
    }
  }

  /** `a` can be obtained from `b` by deleting elements, keeping the order of
      the rest. */
  ghost predicate Subseq<T>(a: seq<T>, b: seq<T>)
    decreases |b|
  {
    if |a| == 0 then true
    else if |b| == 0 then false
    else if a[0] == b[0] then Subseq(a[1..], b[1..])
    else Subseq(a, b[1..])
  }

  /** `xss.flat()`: the lists one after another. */
  function Concat<T>(xss: seq<seq<T>>): (r: seq<T>)
    ensures forall i, k :: 0 <= i < |xss| && 0 <= k < |xss[i]| ==> xss[i][k] in r
    ensures forall k :: 0 <= k < |r| ==> exists i :: 0 <= i < |xss| && r[k] in xss[i]
    ensures xss == [] ==> r == []
    ensures |xss| == 1 ==> r == xss[0]
    decreases |xss|
  {
    if |xss| == 0 then [] else xss[0] + Concat(xss[1..])
  }

  /** Flattening lays the inner lists out one after another, in order: the
      flattening of two lists of lists is the two flattenings joined. */
  lemma {:induction false} ConcatAppend<T>(a: seq<seq<T>>, b: seq<seq<T>>)
    ensures Concat(a + b) == Concat(a) + Concat(b)
    decreases |a|
  {
    if |a| > 0 {
      assert (a + b)[1..] == a[1..] + b;
      ConcatAppend(a[1..], b);
    } else {
      assert a + b == b;
    }
  }
}

=== FILE: text.dfy ===
/** String helpers with the meaning JavaScript gives them: `String.prototype.trim`
    and `Array.prototype.join`. */
module Text {

  /** The characters `trim` removes: ECMAScript WhiteSpace (TAB, VT, FF, SP,
      NBSP, ZWNBSP and the Unicode space separators) and LineTerminator
      (LF, CR, LS, PS). */
  predicate IsWhitespace(c: char) {
    || c == '\t' || c == '\U{B}' || c == '\U{C}' || c == ' ' || c == '\U{A0}' || c == '\U{FEFF}'
    || c == '\U{1680}' || ('\U{2000}' <= c <= '\U{200A}') || c == '\U{202F}' || c == '\U{205F}' || c == '\U{3000}'
    || c == '\n' || c == '\r' || c == '\U{2028}' || c == '\U{2029}'
  }

  /** Every character of `s` is whitespace. */
  predicate AllWhitespace(s: string) {
    forall k :: 0 <= k < |s| ==> IsWhitespace(s[k])
  }

  /** Neither end of `s` is whitespace. */
  predicate IsTrimmed(s: string) {
    s == [] || (!IsWhitespace(s[0]) && !IsWhitespace(s[|s| - 1]))
  }

  /** The first position at or after `i` that does not hold whitespace
      (`|s|` if there is none). */
  function SkipLeading(s: string, i: nat): (j: nat)
    requires i <= |s|
    ensures i <= j <= |s|
    ensures forall k :: i <= k < j ==> IsWhitespace(s[k])
    ensures j == |s| || !IsWhitespace(s[j])
    decreases |s| - i
  {
    if i < |s| && IsWhitespace(s[i]) then SkipLeading(s, i + 1) else i
  }

  /** The end of `s[lo..j]` once its trailing whitespace is dropped. */
  function SkipTrailing(s: string, lo: nat, j: nat): (e: nat)
    requires lo <= j <= |s|
    ensures lo <= e <= j
    ensures forall k :: e <= k < j ==> IsWhitespace(s[k])
    ensures e == lo || !IsWhitespace(s[e - 1])
    decreases j
  {
    if j > lo && IsWhitespace(s[j - 1]) then SkipTrailing(s, lo, j - 1) else j
  }

  /** `s.trim()`: `s` with whitespace removed from both ends. The result is
      the slice of `s` left once a whitespace prefix and a whitespace suffix
      are dropped, and it is empty exactly when `s` is all whitespace. */
  function Trim(s: string): (r: string)
    ensures IsTrimmed(r)
    ensures r == [] <==> AllWhitespace(s)
    ensures var lead := SkipLeading(s, 0);
      && lead + |r| <= |s|
      && r == s[lead..lead + |r|]
      && (forall k :: 0 <= k < lead ==> IsWhitespace(s[k]))
      && (forall k :: lead + |r| <= k < |s| ==> IsWhitespace(s[k]))
  {
    var a := SkipLeading(s, 0);
    var b := SkipTrailing(s, a, |s|);
    assert AllWhitespace(s) ==> a == b by {
      if a < b { assert !IsWhitespace(s[a]); }
    }
    s[a..b]
  }

  /** A JavaScript condition `!s.trim()`: the text holds nothing but whitespace. */
  predicate IsBlank(s: string) {
    Trim(s) == []
  }

  /** Trimming twice is trimming once. */
  lemma TrimIdempotent(s: string)
    ensures Trim(Trim(s)) == Trim(s)
  {
    TrimmedIsFixed(Trim(s));
  }

  /** A string with no whitespace at either end is its own trim. */
  lemma TrimmedIsFixed(t: string)
    requires IsTrimmed(t)
    ensures Trim(t) == t
  {
    assert SkipLeading(t, 0) == 0;
    assert SkipTrailing(t, 0, |t|) == |t|;
  }

  /** `xs.join(sep)`: empty for no entries, starting with the first entry and
      ending with the last. */
  function Join(xs: seq<string>, sep: string): (r: string)
    ensures xs == [] ==> r == ""
    ensures |xs| == 1 ==> r == xs[0]
    ensures |xs| > 0 ==> xs[0] <= r
    ensures |xs| > 0 ==> |xs[|xs| - 1]| <= |r| && r[|r| - |xs[|xs| - 1]|..] == xs[|xs| - 1]
    decreases |xs|
  {
    if |xs| == 0 then ""
    else if |xs| == 1 then xs[0]
    else xs[0] + sep + Join(xs[1..], sep)
  }

  /** Appending one more entry to a non-empty list appends the separator and
      that entry to the joined text. */
  lemma {:induction false} JoinSnoc(xs: seq<string>, y: string, sep: string)
    requires |xs| > 0
    ensures Join(xs + [y], sep) == Join(xs, sep) + sep + y
    decreases |xs|
  {
    if |xs| == 1 {
      assert (xs + [y])[1..] == [y];
    } else {
      assert (xs + [y])[1..] == xs[1..] + [y];
      JoinSnoc(xs[1..], y, sep);
    }
  }

  /** The joined text is as long as all entries plus one separator between
      each neighbouring pair. */
  lemma {:induction false} JoinLength(xs: seq<string>, sep: string)
    ensures |xs| > 0 ==> |Join(xs, sep)| == TotalLength(xs) + (|xs| - 1) * |sep|
    decreases |xs|
  {
    if |xs| > 1 {
      JoinLength(xs[1..], sep);
    }
  }

  function TotalLength(xs: seq<string>): nat
    decreases |xs|
  {
    if |xs| == 0 then 0 else |xs[0]| + TotalLength(xs[1..])
  }
}

=== FILE: users.dfy ===
/** The user record the group screens receive from `/users?ids=…`, and the
    id-to-user table both of them build from such a list. */
module Users {

  datatype User = User(id: string, name: string, surname: string)

  /** The table `forEach(u => map[u.id] = u)` builds: one entry per id in
      the list, each entry a user of the list carrying that id. */
  function UserMap(users: seq<User>): (m: map<string, User>)
    ensures forall k :: k in m <==> exists i :: 0 <= i < |users| && users[i].id == k
    ensures forall k :: k in m ==> m[k].id == k && m[k] in users
    decreases |users|
  {
    if |users| == 0 then map[]
    else
      var n := |users| - 1;
      var prev := UserMap(users[..n]);
      assert forall k :: k in prev ==> prev[k] in users by {
        assert forall u :: u in users[..n] ==> u in users;
      }
      prev[users[n].id := users[n]]
  }

  /** When a user's id does not occur again later in the list, the table
      holds that user: with duplicate ids the last entry wins. */
  lemma {:induction false} UserMapLastWins(users: seq<User>, i: nat)
    requires i < |users|
    requires forall j :: i < j < |users| ==> users[j].id != users[i].id
    ensures users[i].id in UserMap(users) && UserMap(users)[users[i].id] == users[i]
    decreases |users|
  {
    var n := |users| - 1;
    if i < n {
      UserMapLastWins(users[..n], i);
    }
  }
}
